=== FILE: README.md ===
# Freshdesk History Cleaner — a Dafny model

Freshdesk History Cleaner is a browser content script for Freshdesk ticket
pages. A reply in a ticket conversation usually quotes the whole earlier
thread below a divider: an `hr`, or a `div` whose inline style carries the
Outlook reply border. The script adds a toggle button to the navbar.

- **Pressed once**, it hides everything from each divider on. Each message
  is backed up first, keyed by the message element itself.
- **While cleaning is on**, when the page has a "load more" button, a
  mutation observer watches the conversation for messages the page loads
  later. It cleans them after a settle delay, with a
  2000 ms debounce.
- **Pressed again**, it puts every backed-up message's original content
  back, empties the backup store and switches cleaning off.

This project models that engine as pure functions over immutable data, and
proves what the code promises about it.

- `Dom` (dom.dfy) covers the nodes of a message's child list and JavaScript's
  `trim`. It defines the per-node hiding step: an element gets
  `display:none`; a non-blank text node is swapped for a hidden `span`; other
  nodes stay as they are. It also defines which nodes are history markers.
- `Markup` (markup.dfy) is `innerHTML` as a token sequence, together with a
  lenient reader that stands for `DOMParser` and is idealised as the inverse
  of serialization. It proves that reading back the markup of any child list
  gives its normalization, so a normalized list comes back exactly and only
  normalized lists do.
- `Redactor` (redactor.dfy) covers `hideContent`, the sibling walk that steps
  over a node whose hiding throws, and the per-marker `forEach` of
  `cleanMessage`.
- `Orchestrator` (orchestrator.dfy) covers `cleanMessage` and the
  `cleanMessages` pass over the document. The backup store is a
  `map<MsgId, Backup>`, and message identity is a `MsgId` that is distinct
  across the document.
- `Restorer` (restorer.dfy) covers `safelyRestoreContent` (a method with
  loops), `restoreMessages`, and the clean-then-restore round trip.
- `ChangeWatcher` (watcher.dfy) is the observer gate of `observeChanges` as
  a state machine over an integer clock. The settle timer (500 ms) and the
  cool-down timer (1000 ms) are explicit phases.
- `Presence` (presence.dfy) covers `addInterfaceButton`, the body observer
  of `observeInterface`, and `init`.
- `Controller` (controller.dfy) covers the button's `onclick`,
  `activateCleaning`, host re-renders and the clock, for both the settle
  callback as written and a corrected one.

How the code was read:

- **Nothing is removed.** Node positions stand for node identity. Hiding
  never removes a node: the replacing span takes the text node's place.
- **Failing nodes.** The nodes whose hiding throws, for example a node the
  host detached meanwhile, are a parameter (`failing`). Such a node is left
  as it is and the walk goes on.
- **The watcher's first run.** `lastExecution` starts at 0 in
  `observeChanges` (contentScript.js:258). The first detection therefore
  needs a clock reading of at least 2000.
- **A restore does not switch the watcher off.** `restoreMessages` leaves
  the observer as it is (connected, or disconnected while a run is in
  progress) and only clears `cleaningActive`. The model follows
  the code: the gate at contentScript.js:261 stops new detections. A settle
  timer that is already scheduled still runs, and it runs `cleanMessages`
  (see Findings). That pass is not harmless. Just after a restore the store
  is empty, so the "already backed up" test does not hold anything back:
  every message that has a marker is hidden and backed up again.

## Model

| member | source | states |
|---|---|---|
| Dom.Trim | contentScript.js:58 | `trim()` removes a whitespace prefix and a whitespace suffix and keeps the contiguous part between them; it gives the empty string exactly when the text is all whitespace (JavaScript's whitespace set); otherwise the result starts and ends with a non-space |
| Dom.Hide | contentScript.js:56-63 | every element and every non-blank text node ends up hidden; a whitespace-only text node or a comment is unchanged; an element keeps tag and style except `display`; the node's text is preserved |
| Dom.Markers | contentScript.js:10-14 | the marker positions are exactly the `hr` elements and divider-styled `div`s of the list, in strictly increasing document order |
| Markup.Parse | contentScript.js:128-129 | parsing never fails, and the parsed body never holds an empty text node |
| Markup.ParseSerialize | contentScript.js:73 | parsing the `innerHTML` of a normalized child list gives the same list back |
| Markup.SerializeInjective | contentScript.js:73 | distinct normalized child lists have distinct `innerHTML` |
| Markup.SerializeEmpty | contentScript.js:112 | the markup of a normalized list is the empty string only when the list is empty |
| Markup.ParseNormalize | contentScript.js:73 | reading back the `innerHTML` of any child list gives that list with empty text nodes dropped and adjacent text nodes merged |
| Markup.NormalizeShrinks | contentScript.js:128-129 | normalizing never lengthens a child list, and keeps its length only when the list is normalized already |
| Markup.RoundTripOnlyNormal | contentScript.js:128-129 | a child list that comes back unchanged from serializing and reading back is normalized |
| Markup.AdjacentTextMerges | contentScript.js:129 | an instance: two adjacent text nodes come back as one |
| Redactor.Walk | contentScript.js:52-68 | the walk from a node hides every non-failing sibling from there up to the end node, or to the end of the list when the end is absent or not a later sibling; a failing node is skipped and the walk continues; nothing else changes |
| Redactor.HideContent | contentScript.js:51-69 | `start` and all earlier siblings are untouched; the end node and everything after it are untouched; each sibling strictly between them is hidden unless its hiding fails; length is preserved |
| Redactor.HideFrom | contentScript.js:77-81 | from marker `k` on, every marker is hidden, and so is every non-failing node after marker `k`; nodes before it are untouched |
| Redactor.HideHistory | contentScript.js:77-81 | every marker is hidden, every non-failing sibling after the first marker is hidden, and everything before the first marker is unchanged |
| Redactor.HideHistoryPartition | contentScript.js:72-81 | content before the first marker is untouched; every marker is hidden; each segment from a marker to the next marker (or to the end) is hidden node by node except failing nodes; every node keeps its text |
| Redactor.HideHistoryKeepsMarkers | contentScript.js:92-95 | in the model, hiding keeps the same markers in place, so a cleaned message still has markers and only its backup keeps it from a second cleaning; in the source only `hr` markers keep matching the selector |
| Orchestrator.CleanMessage | contentScript.js:71-82 | the message keeps its identity and child count, and its children are hidden from its markers on, marker by marker; the store gains exactly this message's entry and keeps the others; the entry is taken before hiding and parses back to the original children |
| Orchestrator.CleanMessages | contentScript.js:84-106 | every message stays in place with its identity; a message already backed up or without a marker is left alone; every other message is redacted at its markers and backed up with its original markup; old entries are kept; the count is the number of entries added |
| Orchestrator.PassBacksUp | contentScript.js:91-98 | after a pass the store holds exactly the old entries, unchanged, plus a snapshot of the original markup of each message that needed cleaning |
| Orchestrator.CleanNothing | contentScript.js:91-95 | when every message is backed up or has no marker, the pass changes neither document nor store and counts 0 |
| Orchestrator.CleanTwice | contentScript.js:91-99 | a second pass right after a first one cleans 0 messages and changes nothing |
| Restorer.SafelyRestoreContent | contentScript.js:126-141 | after removing every child and appending the parsed ones, the element's children are exactly the parsed markup, whatever they were before |
| Restorer.RestoreDoc | contentScript.js:111-116 | every message keeps its place and identity; each message with a non-empty entry gets the parsed markup as children; every other message is unchanged |
| Restorer.RestoreMessages | contentScript.js:108-124 | the store ends empty and cleaning off; messages keep their places and identities; those with a non-empty entry get the parsed backup, others are unchanged; the count is the number of entries with non-empty markup |
| Restorer.SnapshotNonEmpty | contentScript.js:72-73 | a message the pass cleans has non-empty backup markup, so a restore always takes its entry |
| Restorer.CountRestored | contentScript.js:111-116 | when every entry has markup, the restore count is the number of entries |
| Restorer.RestoreAfterClean | contentScript.js:72-73 | restoring after a pass from an empty store gives back every message's original children, provided each message the pass cleans has normalized children |
| Restorer.CleanThenRestore | contentScript.js:111-119 | clean from an empty store, then restore (each cleaned message having normalized children): the original document, an empty store, cleaning off, and as many messages restored as were cleaned |
| ChangeWatcher.OnMutations | contentScript.js:260-273 | the observer detects new messages if and only if it is connected, cleaning is active, no run is in progress, a message element was added and 2000 ms have passed since the last detection; a detection records the time, disconnects and schedules the pass 500 ms later; otherwise nothing changes |
| ChangeWatcher.OnTick | contentScript.js:277-283 | the pass runs exactly when the settle timer is due, and the cool-down is then armed 1000 ms after the moment the pass runs; the cool-down timer reconnects and clears the in-progress flag; the last detection time is never changed by a timer |
| ChangeWatcher.Step | contentScript.js:271-283 | every step keeps the observer disconnected exactly while a run is in progress; a pending settle timer is due 500 ms after the last detection, and a pending cool-down timer no earlier than 1500 ms after it (it is armed when the pass runs) |
| ChangeWatcher.RunDebounced | contentScript.js:269-272 | over any run of inputs, every detection comes at least 2000 ms after the previous one, and the final `lastExecution` is the last detection |
| ChangeWatcher.BurstsCoalesce | contentScript.js:269 | no two detections of a run are less than 2000 ms apart, so qualifying bursts closer than that yield one pass |
| ChangeWatcher.RunPasses | contentScript.js:271-283 | every detection is followed by exactly one pass: the passes run plus the one still pending equal the detections plus the one pending at the start |
| ChangeWatcher.InactiveNeverFires | contentScript.js:261 | a watcher that sees mutations only while cleaning is off never detects anything, and runs at most the one pass already pending |
| Presence.AddInterfaceButton | contentScript.js:204-217 | nothing happens when a container exists or the admin item is missing; otherwise exactly one container is added; afterwards a second call is a no-op |
| Presence.OnBodyMutation | contentScript.js:228-238 | off a ticket page one container is removed; on a ticket page with the admin item there is a container afterwards; on a ticket page without the admin item nothing changes |
| Presence.ObserveInterface | contentScript.js:227-245 | the observer is installed, and on a ticket page with the admin item a container exists afterwards |
| Presence.Init | contentScript.js:299-307 | the interface observer is installed exactly on a ticket page; off a ticket page nothing happens |
| Presence.AtMostOneKept | contentScript.js:205-208 | adding, reacting, observing, initializing and any host change all keep at most one container |
| Presence.ObservedPresence | contentScript.js:229-237 | with the observer installed, after any change there is no button off a ticket page and exactly one on a ticket page with its admin item |
| Presence.Idempotent | contentScript.js:205-208 | adding the button twice is adding it once; with at most one container, reacting twice is reacting once |
| Presence.NeverDuplicated | contentScript.js:227-245 | over any run of host changes there is never more than one button, and with the observer installed the last change decides whether it is there |
| Controller.ActivateCleaning | contentScript.js:219-224 | cleaning is switched on; existing entries are kept unchanged, each message that needs cleaning gains a snapshot of its original markup, and no other entry is added; a fresh watcher is installed exactly when the "load more" button is present; every message keeps its identity, a message that needs cleaning is redacted at its markers and any other is unchanged |
| Controller.OnClick | contentScript.js:194-196 | a press flips the cleaning flag and keeps every message's place and identity; a press while active gives each message with a non-empty entry its parsed backup and leaves the others, empties the store and leaves the watcher as it is; a press while inactive keeps every entry, adds a snapshot of each message that needs cleaning and no other entry, redacts those messages, leaves the others unchanged, and installs a fresh watcher exactly when the "load more" button is present |
| Controller.OnRender | contentScript.js:260-273 | a host re-render replaces the document and leaves store and flag alone; the watcher takes the observer callback's step: when its gate is open it records the time, disconnects and schedules the pass 500 ms later, and a watcher whose gate stays shut is left unchanged |
| Controller.OnClock | contentScript.js:277-283 | a clock tick never changes the flag and advances the watcher by its timer step; the session changes only when the settle timer runs the pass, which keeps every entry unchanged, adds a snapshot of each message that needs cleaning and no other entry, keeps every message in place, redacts those messages and leaves the others unchanged |
| Controller.CorrectedStepConsistent | contentScript.js:277-278 | with the settle callback re-checking `cleaningActive`, every event keeps backups only while cleaning is active, and keeps the watcher consistent |
| Controller.CorrectedRunConsistent | contentScript.js:277-278 | corrected: any run of events from a consistent state stays consistent |
| Controller.RestoredStaysRestored | contentScript.js:118-119 | corrected: after a restore, no re-render and no timer cleans again until the next press |
| Controller.ToggleRoundTrip | contentScript.js:194-196 | two presses on a page nothing has cleaned yet (each message to be cleaned having normalized children) give back every message's original children, an empty store and cleaning off |
| Controller.StaleSettleRecleans | contentScript.js:277-278 | as written, a press, a detection, a restoring press and the settle timer leave a backup while cleaning is off; the corrected callback stays consistent on the same events |

## Left out

- Notifications (`showNotification`), button creation and styling, the button's label text and its hover effects: these are user-interface output with no bearing on the state.
- Console logging, and the `document.readyState` / `DOMContentLoaded` bootstrapping: `init` is modelled as running once.
- The global error hook `hideNonCriticalErrors`: it is a browser event hook that only suppresses error reports.
- `isTicketPage`'s regular expression on `window.location.pathname` is an input boolean, and so is the navbar admin item's presence.
- CSS selectors:
  - The message selector is replaced by the document being a given list of messages.
  - The "load more" selector is a boolean on the press.
  - The marker selector is `IsMarker`: an `hr`, or a `div` with the reply-divider style. The styled `hr` alternative is subsumed by plain `hr`.
- Nested markers: `querySelectorAll` also finds markers deeper in the tree. The model gives each message one flat child list, with every element's subtree reduced to its text content, and `hideContent` only ever walks `start`'s own siblings.
- HTML escaping and the character-level HTML grammar: markup is a token sequence.
- The outer `try`/`catch` of `cleanMessages` and the one of `safelyRestoreContent`: in the model nothing but the per-node hiding can fail, so neither is reachable.
- Several observers per activation: every `activateCleaning` calls `observeChanges`, which installs a new observer and never disconnects the old one. The model keeps one watcher, and a new activation replaces it.
- The `conversationArea` null check in `observeChanges`: `closest(..., body)` always finds the body.
- `Date.now()` and the timers: time is the `now` of each event, and one clock event runs at most one due timer.
- A mutation observer's batching: each host re-render is one batch of mutations.
- Redactor.HideHistoryKeepsMarkers: a hidden divider `div` keeps `divider` in the model, although in a browser setting `style.display` rewrites its style text so the divider-style selector (contentScript.js:11) no longer matches it; only `hr` markers keep matching. The consequence is bounded: a cleaned message is already held back by its backup entry, and a restore brings the original style text back.
- HTML tree construction: a real `DOMParser` moves leading whitespace and leading comments of the markup out of the body, and drops a stray end tag so that the text around it merges, where `Markup.Parse` keeps that text as two text nodes. `Markup.Parse` is idealised as the inverse of `Serialize` on normalized lists (the round trip the restore relies on) and keeps leading whitespace and comments in place.

## Findings

| source | as written | input that shows it | evidently intended | confidence | as-written member | corrected member |
|---|---|---|---|---|---|---|
| contentScript.js:277-278 | the settle callback runs `cleanMessages()` without re-checking `cleaningActive`; a restore between detection and settle empties the store, so the stale pass hides and backs up every message with a marker while cleaning is off, and the button offers to clean an already cleaned page | one message whose only child is an `hr`: press at 0, the host re-renders message 1 at 3000, re-inserting its element (detected, pass due at 3500), press at 3100 (restore), clock at 3600 | no pass after a restore: the settle callback skips `cleanMessages()` when `cleaningActive` is false and the cool-down still reconnects the observer, so backups exist only while cleaning is active | medium, not executed | Controller.StaleSettleRecleans | Controller.CorrectedRunConsistent |

=== FILE: controller.dfy ===
/** The toggle and the page-level behaviour around it: the button's `onclick`
    (restore when cleaning is active, otherwise `activateCleaning`), the host
    page re-rendering the conversation, and the clock running the watcher's
    timers. The settle timer's callback is given as written (it runs
    `cleanMessages` unconditionally) and corrected (it skips `cleanMessages`
    when `cleaningActive` is off, and still arms the cool-down); `recheck`
    selects between the two. */
module Controller {
  import opened Dom
  import opened Markup
  import opened Orchestrator
  import opened Restorer
  import ChangeWatcher

  /** The content script's state: the page session and the watcher the last
      activation installed, if any. */
  datatype App = App(session: Session, watcher: Option<ChangeWatcher.Watcher>)

  /** What happens to the page: the user presses the toggle (with the
      "load more" button present or not), the host re-renders the
      conversation (with or without adding a message element), or the clock
      reaches `now`. Events that may run a pass carry the nodes whose hiding
      fails. */
  datatype Event =
    | Press(now: int, loadMore: bool, f: Failures)
    | HostRender(now: int, doc: Doc, addsMessage: bool)
    | Clock(now: int, f: Failures)

  /** `activateCleaning`: one pass, cleaning switched on, and a fresh watcher
      when the "load more" button is there (`observeChanges` returns early
      otherwise). */
  function ActivateCleaning(a: App, now: int, loadMore: bool, f: Failures): (r: App)
    ensures r.session.active
    ensures a.session.store.Keys <= r.session.store.Keys
    ensures forall id :: id in a.session.store ==> r.session.store[id] == a.session.store[id]
    ensures BackedUp(a.session.doc, a.session.store, now, r.session.store)
    ensures |r.session.doc| == |a.session.doc|
    ensures forall i :: 0 <= i < |a.session.doc| ==> r.session.doc[i].id == a.session.doc[i].id
    ensures forall i :: 0 <= i < |a.session.doc| && !NeedsCleaning(a.session.doc[i], a.session.store) ==>
      r.session.doc[i] == a.session.doc[i]
    ensures forall i :: 0 <= i < |a.session.doc| && NeedsCleaning(a.session.doc[i], a.session.store) ==>
      r.session.doc[i] == Redact(a.session.doc[i], FailingIn(f, a.session.doc[i].id))
    ensures r.watcher == if loadMore then Some(ChangeWatcher.Fresh) else a.watcher
  {
    var p := CleanMessages(a.session.doc, a.session.store, f, now);
    PassBacksUp(a.session.doc, a.session.store, f, now);
    App(Session(p.doc, p.store, true), if loadMore then Some(ChangeWatcher.Fresh) else a.watcher)
  }

  /** The button's `onclick`: restore when active, activate otherwise. The
      watcher is left as it is by a restore. */
  function OnClick(a: App, now: int, loadMore: bool, f: Failures): (r: App)
    ensures r.session.active == !a.session.active
    ensures |r.session.doc| == |a.session.doc|
    ensures forall i :: 0 <= i < |a.session.doc| ==> r.session.doc[i].id == a.session.doc[i].id
    ensures a.session.active ==> r.session.store == map[] && r.watcher == a.watcher
    ensures a.session.active ==> forall i :: 0 <= i < |a.session.doc| ==>
      r.session.doc[i].children ==
        if Restorable(a.session.store, a.session.doc[i].id) then Parse(a.session.store[a.session.doc[i].id].html)
        else a.session.doc[i].children
    ensures !a.session.active ==> a.session.store.Keys <= r.session.store.Keys
    ensures !a.session.active ==> forall id :: id in a.session.store ==> r.session.store[id] == a.session.store[id]
    ensures !a.session.active ==> BackedUp(a.session.doc, a.session.store, now, r.session.store)
    ensures !a.session.active ==> r.watcher == if loadMore then Some(ChangeWatcher.Fresh) else a.watcher
    ensures !a.session.active ==> forall i :: 0 <= i < |a.session.doc| ==>
      r.session.doc[i] == if NeedsCleaning(a.session.doc[i], a.session.store)
        then Redact(a.session.doc[i], FailingIn(f, a.session.doc[i].id)) else a.session.doc[i]
  {
    if a.session.active then App(RestoreMessages(a.session).0, a.watcher)
    else ActivateCleaning(a, now, loadMore, f)
  }

  /** The host replaces the conversation; the watcher, if connected, sees the
      mutation batch with the cleaning flag as it stands. */
  function OnRender(a: App, now: int, doc: Doc, addsMessage: bool): (r: App)
    ensures r.session == Session(doc, a.session.store, a.session.active)
    ensures a.watcher.None? ==> r.watcher.None?
    ensures a.watcher.Some? && ChangeWatcher.Fires(a.watcher.value, now, a.session.active, addsMessage) ==>
              r.watcher.Some? && r.watcher.value.inProgress && r.watcher.value.lastExecution == now
    ensures a.watcher.Some? && !ChangeWatcher.Fires(a.watcher.value, now, a.session.active, addsMessage) ==>
              r.watcher == a.watcher
    ensures a.watcher.Some? ==>
              r.watcher == Some(ChangeWatcher.OnMutations(a.watcher.value, now, a.session.active, addsMessage).0)
  {
    var w := match a.watcher
      case None => None
      case Some(w) => Some(ChangeWatcher.OnMutations(w, now, a.session.active, addsMessage).0);
    App(Session(doc, a.session.store, a.session.active), w)
  }

  /** The settle timer runs the pass: as written unconditionally, corrected
      only while cleaning is active. */
  predicate PassRuns(a: App, now: int, recheck: bool) {
    && a.watcher.Some?
    && ChangeWatcher.OnTick(a.watcher.value, now).1 == ChangeWatcher.RunsPass
    && (!recheck || a.session.active)
  }

  /** The clock reaches `now`: a due timer of the watcher runs. */
  function OnClock(a: App, now: int, f: Failures, recheck: bool): (r: App)
    ensures r.session.active == a.session.active
    ensures !PassRuns(a, now, recheck) ==> r.session == a.session
    ensures PassRuns(a, now, recheck) ==> a.session.store.Keys <= r.session.store.Keys
    ensures PassRuns(a, now, recheck) ==> BackedUp(a.session.doc, a.session.store, now, r.session.store)
    ensures PassRuns(a, now, recheck) ==> |r.session.doc| == |a.session.doc|
    ensures PassRuns(a, now, recheck) ==> forall i :: 0 <= i < |a.session.doc| ==>
      r.session.doc[i] == if NeedsCleaning(a.session.doc[i], a.session.store)
                          then Redact(a.session.doc[i], FailingIn(f, a.session.doc[i].id))
                          else a.session.doc[i]
    ensures a.watcher.None? ==> r == a
    ensures a.watcher.Some? ==> r.watcher == Some(ChangeWatcher.OnTick(a.watcher.value, now).0)
  {
    match a.watcher
    case None => a
    case Some(w) =>
      var (w1, o) := ChangeWatcher.OnTick(w, now);
      if o == ChangeWatcher.RunsPass && (!recheck || a.session.active) then
        var p := CleanMessages(a.session.doc, a.session.store, f, now);
        PassBacksUp(a.session.doc, a.session.store, f, now);
        App(Session(p.doc, p.store, a.session.active), Some(w1))
      else
        App(a.session, Some(w1))
  }

  function StepWith(a: App, e: Event, recheck: bool): App {
    match e
    case Press(now, loadMore, f) => OnClick(a, now, loadMore, f)
    case HostRender(now, doc, adds) => OnRender(a, now, doc, adds)
    case Clock(now, f) => OnClock(a, now, f, recheck)
  }

  function RunWith(a: App, es: seq<Event>, recheck: bool): App
    decreases |es|
  {
    if es == [] then a else RunWith(StepWith(a, es[0], recheck), es[1..], recheck)
  }

  /** The state the toggle's label stands for: backups exist only while
      cleaning is active (a restore leaves none), and the watcher's flags and
      timers are consistent. */
  predicate Consistent(a: App) {
    && (a.session.store != map[] ==> a.session.active)
    && (a.watcher.Some? ==> ChangeWatcher.Inv(a.watcher.value))
  }

  /** With the settle callback re-checking `cleaningActive`, every event keeps
      the state consistent. */
  lemma CorrectedStepConsistent(a: App, e: Event)
    requires Consistent(a)
    ensures Consistent(StepWith(a, e, true))
  {
    match e
    case Press(now, loadMore, f) =>
    case HostRender(now, doc, adds) =>
      var w := a.watcher;
      if w.Some? {
        assert ChangeWatcher.Step(w.value, ChangeWatcher.Mutations(now, a.session.active, adds)).0
            == StepWith(a, e, true).watcher.value;
      }
    case Clock(now, f) =>
      var w := a.watcher;
      if w.Some? {
        assert ChangeWatcher.Step(w.value, ChangeWatcher.Tick(now)).0
            == StepWith(a, e, true).watcher.value;
      }
  }

  /** Corrected: from a consistent state, any run of events keeps it consistent. */
  lemma {:induction false} CorrectedRunConsistent(a: App, es: seq<Event>)
    requires Consistent(a)
    ensures Consistent(RunWith(a, es, true))
    decreases |es|
  {
    if es != [] {
      CorrectedStepConsistent(a, es[0]);
      CorrectedRunConsistent(StepWith(a, es[0], true), es[1..]);
    }
  }

  /** No press among the events. */
  predicate NoPress(es: seq<Event>) {
    forall k :: 0 <= k < |es| ==> !es[k].Press?
  }

  /** Corrected: after a restore, nothing but the next press cleans again;
      whatever the host renders and whatever timers run, the store stays
      empty and cleaning stays off. */
  lemma {:induction false} RestoredStaysRestored(a: App, es: seq<Event>)
    requires !a.session.active && a.session.store == map[]
    requires NoPress(es)
    ensures RunWith(a, es, true).session.store == map[]
    ensures !RunWith(a, es, true).session.active
    decreases |es|
  {
    if es != [] {
      var b := StepWith(a, es[0], true);
      assert NoPress(es[1..]) by {
        forall k | 0 <= k < |es[1..]|
          ensures !es[1..][k].Press?
        {
          assert es[1..][k] == es[k + 1];
        }
      }
      assert !es[0].Press?;
      RestoredStaysRestored(b, es[1..]);
    }
  }

  /** The toggle pressed twice on a page nothing has cleaned yet gives every
      message its original children back, with no backup left and cleaning
      off. */
  lemma ToggleRoundTrip(a: App, t1: int, t2: int, loadMore: bool, f: Failures, f': Failures)
    requires !a.session.active && a.session.store == map[]
    requires forall i :: 0 <= i < |a.session.doc| && NeedsCleaning(a.session.doc[i], map[]) ==>
               Normal(a.session.doc[i].children)
    ensures var b := OnClick(a, t1, loadMore, f);
            OnClick(b, t2, loadMore, f').session == Session(a.session.doc, map[], false)
  {
    CleanThenRestore(a.session.doc, f, t1);
  }

  /** The page of the counterexample: one message whose only child is a
      horizontal rule. */
  const OneRule: Doc := [Msg(1, [Elem("hr", false, false, "")])]

  /** The events of the counterexample: press at 0 (clean, watcher armed);
      the host re-renders message 1 at 3000, re-inserting its element
      (detected, settle due at 3500); press at 3100 (restore); the clock
      reaches 3600 (the settle timer runs). */
  const StaleTimerEvents: seq<Event> := [
    Press(0, true, map[]),
    HostRender(3000, OneRule, true),
    Press(3100, true, map[]),
    Clock(3600, map[])
  ]

  const Start: App := App(Session(OneRule, map[], false), None)

  /** The only message of the counterexample needs cleaning, and its backup
      parses back to it. */
  lemma OneRuleFacts()
    ensures NeedsCleaning(OneRule[0], map[])
    ensures Parse(Snapshot(OneRule[0], 0).html) == OneRule[0].children
  {
    assert IsMarker(OneRule[0].children[0]);
    assert 0 in Markers(OneRule[0].children);
    ParseSerialize(OneRule[0].children);
  }

  /** The press at 0 cleans the message, backs it up and arms a fresh watcher. */
  lemma FirstPress(a: App)
    requires a == Start
    ensures var b := StepWith(a, Press(0, true, map[]), false);
            && b.session.active && b.watcher == Some(ChangeWatcher.Fresh)
            && 1 in b.session.store && b.session.store[1] == Snapshot(OneRule[0], 0)
  {
    OneRuleFacts();
    var p := CleanMessages(OneRule, map[], map[], 0);
    assert OneRule[0].id == 1;
  }

  /** The render at 3000 adds a message while cleaning is active: the watcher
      detects it and its settle timer is due at 3500. */
  lemma Detection(a: App)
    requires a.session.active && a.watcher == Some(ChangeWatcher.Fresh)
    ensures StepWith(a, HostRender(3000, OneRule, true), false)
            == App(Session(OneRule, a.session.store, true),
                   Some(ChangeWatcher.Watcher(false, true, 3000, ChangeWatcher.Settling(3500))))
  {
    assert ChangeWatcher.Fires(ChangeWatcher.Fresh, 3000, true, true);
  }

  /** The press at 3100 restores: the store is emptied and the message gets
      its backup back; the pending settle timer is untouched. */
  lemma SecondPress(a: App)
    requires a.session.active && a.session.doc == OneRule
    requires 1 in a.session.store && a.session.store[1] == Snapshot(OneRule[0], 0)
    ensures var b := StepWith(a, Press(3100, true, map[]), false);
            b == App(Session(OneRule, map[], false), a.watcher)
  {
    OneRuleFacts();
    var b := StepWith(a, Press(3100, true, map[]), false);
    assert b.session.doc[0] == OneRule[0];
    assert b.session.doc == OneRule;
  }

  /** The clock at 3600 runs the settle timer: as written the pass cleans the
      restored message again with cleaning off; corrected it runs no pass and
      only arms the cool-down. */
  lemma StaleTimer(a: App)
    requires a == App(Session(OneRule, map[], false),
                      Some(ChangeWatcher.Watcher(false, true, 3000, ChangeWatcher.Settling(3500))))
    ensures var b := StepWith(a, Clock(3600, map[]), false);
            b.session.store != map[] && !b.session.active
    ensures StepWith(a, Clock(3600, map[]), true).session.store == map[]
  {
    OneRuleFacts();
    assert PassRuns(a, 3600, false);
  }

  /** As written, the settle timer armed before a restore still runs the pass
      after it: the message is cleaned again and backed up while cleaning is
      off, so the toggle offers to clean a page that is already cleaned.
      Corrected, the same events leave the state consistent. */
  lemma StaleSettleRecleans()
    ensures Consistent(Start)
    ensures !Consistent(RunWith(Start, StaleTimerEvents, false))
    ensures Consistent(RunWith(Start, StaleTimerEvents, true))
  {
    var es := StaleTimerEvents;
    var a1 := StepWith(Start, es[0], false);
    FirstPress(Start);
    var a2 := StepWith(a1, es[1], false);
    Detection(a1);
    var a3 := StepWith(a2, es[2], false);
    SecondPress(a2);
    var a4 := StepWith(a3, es[3], false);
    StaleTimer(a3);
    assert RunWith(Start, es, false) == a4 by {
      assert RunWith(Start, es, false) == RunWith(a1, es[1..], false);
      assert RunWith(a1, es[1..], false) == RunWith(a2, es[2..], false) by {
        assert es[1..][0] == es[1] && es[1..][1..] == es[2..];
      }
      assert RunWith(a2, es[2..], false) == RunWith(a3, es[3..], false) by {
        assert es[2..][0] == es[2] && es[2..][1..] == es[3..];
      }
      assert RunWith(a3, es[3..], false) == RunWith(a4, [], false) by {
        assert es[3..][0] == es[3] && es[3..][1..] == [];
      }
    }
    CorrectedRunConsistent(Start, es);
  }
}

=== FILE: dom.dfy ===
/** The part of the host page's document the history cleaner works on: the
    ordered children of one ticket message, what hiding one of them means, and
    which of them are history markers. */
module Dom {

  datatype Option<+T> = None | Some(value: T)

  /** A child node of a message element. An element's own subtree is reduced to
      its text content; `divider` says whether its inline style carries the
      reply-divider border (`border:none;border-top:solid #E1E1E1 1.0pt;...`)
      and `hidden` whether its inline style sets `display:none`. */
  datatype Node =
    | Elem(tag: string, divider: bool, hidden: bool, content: string)
    | Text(data: string)
    | Comment(data: string)

  /** The code points JavaScript's `String.prototype.trim` strips
      (WhiteSpace and LineTerminator of ECMA-262). */
  predicate IsSpace(ch: char) {
    || ch == '\t' || ch == '\n' || ch == '\U{000B}' || ch == '\U{000C}' || ch == '\r'
    || ch == ' ' || ch == '\U{00A0}' || ch == '\U{1680}'
    || ('\U{2000}' <= ch <= '\U{200A}')
    || ch == '\U{2028}' || ch == '\U{2029}' || ch == '\U{202F}' || ch == '\U{205F}'
    || ch == '\U{3000}' || ch == '\U{FEFF}'
  }

  /** A string made of whitespace only (the empty string included). */
  predicate Blank(s: string) {
    forall i :: 0 <= i < |s| ==> IsSpace(s[i])
  }

  /** Index of the first non-whitespace character at or after `i`. */
  function SkipSpace(s: string, i: nat): (k: nat)
    requires i <= |s|
    ensures i <= k <= |s|
    ensures forall j :: i <= j < k ==> IsSpace(s[j])
    ensures k < |s| ==> !IsSpace(s[k])
    decreases |s| - i
  {
    if i < |s| && IsSpace(s[i]) then SkipSpace(s, i + 1) else i
  }

  /** End of `s[lo..j]` once its trailing whitespace is dropped. */
  function SkipSpaceBack(s: string, lo: nat, j: nat): (k: nat)
    requires lo <= j <= |s|
    ensures lo <= k <= j
    ensures forall x :: k <= x < j ==> IsSpace(s[x])
    ensures k > lo ==> !IsSpace(s[k - 1])
    decreases j
  {
    if j > lo && IsSpace(s[j - 1]) then SkipSpaceBack(s, lo, j - 1) else j
  }

  /** `s.trim()`: the text with its whitespace prefix and suffix removed. It is
      empty exactly when the text is blank, which is the test `hideContent`
      makes. */
  function Trim(s: string): (r: string)
    ensures r == [] <==> Blank(s)
    ensures r != [] ==> !IsSpace(r[0]) && !IsSpace(r[|r| - 1])
    ensures |r| <= |s|
    ensures exists a, b :: 0 <= a <= b <= |s| && r == s[a..b] && Blank(s[..a]) && Blank(s[b..])
  {
    var a := SkipSpace(s, 0);
    var b := SkipSpaceBack(s, a, |s|);
    assert Blank(s[..a]) by {
      forall i | 0 <= i < a
        ensures IsSpace(s[..a][i])
      {
        assert s[..a][i] == s[i];
      }
    }
    assert Blank(s[b..]) by {
      forall i | 0 <= i < |s| - b
        ensures IsSpace(s[b..][i])
      {
        assert s[b..][i] == s[b + i];
      }
    }
    assert Blank(s) ==> a == |s|;
    assert !Blank(s) ==> a < b by {
      if !Blank(s) {
        var j :| 0 <= j < |s| && !IsSpace(s[j]);
        assert a <= j;
      }
    }
    s[a..b]
  }

  /** Nodes that hiding changes: elements, and text that is not blank. */
  predicate Hideable(n: Node) {
    n.Elem? || (n.Text? && !Blank(n.data))
  }

  /** Nodes the page does not render because of `display:none`. */
  predicate IsHidden(n: Node) {
    n.Elem? && n.hidden
  }

  /** What the node contributes to its parent's `textContent`. */
  function TextContent(n: Node): string {
    match n
    case Elem(_, _, _, content) => content
    case Text(data) => data
    case Comment(_) => ""
  }

  /** The per-node step of `hideContent`: an element gets `display:none`; a
      non-blank text node is replaced in place by a `display:none` span holding
      the same text; any other node is left as it is. */
  function Hide(n: Node): (r: Node)
    ensures Hideable(n) ==> IsHidden(r)
    ensures !Hideable(n) ==> r == n
    ensures n.Elem? ==> r == n.(hidden := true)
    ensures TextContent(r) == TextContent(n)
  {
    match n
    case Elem(_, _, _, _) => n.(hidden := true)
    case Text(s) => if Trim(s) != "" then Elem("span", false, true, s) else n
    case Comment(_) => n
  }

  /** The history-marker selector: an `hr` (which subsumes the styled `hr`
      alternative) or a `div` carrying the reply-divider border. */
  predicate IsMarker(n: Node) {
    n.Elem? && (n.tag == "hr" || (n.tag == "div" && n.divider))
  }

  /** Positions of the markers among `c[i..]`, in document order. */
  function MarkersFrom(c: seq<Node>, i: nat): (ms: seq<nat>)
    requires i <= |c|
    ensures forall k :: 0 <= k < |ms| ==> i <= ms[k] < |c| && IsMarker(c[ms[k]])
    ensures forall k, l :: 0 <= k < l < |ms| ==> ms[k] < ms[l]
    ensures forall j :: i <= j < |c| && IsMarker(c[j]) ==> j in ms
    decreases |c| - i
  {
    if i == |c| then []
    else (if IsMarker(c[i]) then [i] else []) + MarkersFrom(c, i + 1)
  }

  /** `msg.querySelectorAll(reprise)` over a flat child list. */
  function Markers(c: seq<Node>): (ms: seq<nat>)
    ensures forall k :: 0 <= k < |ms| ==> ms[k] < |c| && IsMarker(c[ms[k]])
    ensures forall k, l :: 0 <= k < l < |ms| ==> ms[k] < ms[l]
    ensures forall j :: 0 <= j < |c| && IsMarker(c[j]) ==> j in ms
  {
    MarkersFrom(c, 0)
  }

  /** In the model, hiding never makes or unmakes a marker: a hidden element
      keeps its tag and its divider style, and the span that replaces a text
      node is not a marker. In a browser only an `hr` keeps matching: setting
      `display` rewrites a divider `div`'s style text. */
  lemma HideKeepsMarkers(n: Node)
    ensures IsMarker(Hide(n)) == IsMarker(n)
  {
  }

  /** Markers are found from the marker predicate alone, so two lists that agree
      on it position by position have the same markers. */
  lemma {:induction false} SameMarkersFrom(c: seq<Node>, d: seq<Node>, i: nat)
    requires |c| == |d| && i <= |c|
    requires forall j :: 0 <= j < |c| ==> IsMarker(c[j]) == IsMarker(d[j])
    ensures MarkersFrom(c, i) == MarkersFrom(d, i)
    decreases |c| - i
  {
    if i < |c| {
      SameMarkersFrom(c, d, i + 1);
    }
  }
}

=== FILE: markup.dfy ===
/** The serialized form of a message's children: what `element.innerHTML`
    produces, and an idealised reading of it back into child nodes that stands
    for `DOMParser.parseFromString(html, 'text/html')` followed by taking the
    body's child nodes. The reading is the inverse of serialization on
    normalized lists; the HTML tree-construction rules that move or drop
    leading whitespace and comments out of the body are not modelled. Markup
    is kept at the level of tokens (start tag, end tag, character, comment),
    so escaping is not part of the model. */
module Markup {
  import opened Dom

  datatype Token =
    | StartTag(tag: string, divider: bool, hidden: bool)
    | EndTag
    | Char(ch: char)
    | CommentTag(data: string)

  type Html = seq<Token>

  /** Character data as markup. */
  function Chars(s: string): (h: Html)
    ensures |h| == |s|
    ensures forall i :: 0 <= i < |s| ==> h[i] == Char(s[i])
  {
    if s == [] then [] else [Char(s[0])] + Chars(s[1..])
  }

  function SerializeNode(n: Node): Html {
    match n
    case Elem(tag, divider, hidden, content) =>
      [StartTag(tag, divider, hidden)] + Chars(content) + [EndTag]
    case Text(data) => Chars(data)
    case Comment(data) => [CommentTag(data)]
  }

  /** `innerHTML` of an element whose children are `c`. */
  function Serialize(c: seq<Node>): Html {
    if c == [] then [] else SerializeNode(c[0]) + Serialize(c[1..])
  }

  /** Splits off the run of character tokens that `h` starts with. */
  function TakeText(h: Html): (r: (string, Html))
    ensures h == Chars(r.0) + r.1
    ensures r.1 == [] || !r.1[0].Char?
    ensures h != [] && h[0].Char? ==> |r.1| < |h|
  {
    if h != [] && h[0].Char? then
      var (s, rest) := TakeText(h[1..]);
      assert Chars([h[0].ch] + s) == [h[0]] + Chars(s) by {
        assert ([h[0].ch] + s)[1..] == s;
      }
      ([h[0].ch] + s, rest)
    else
      ([], h)
  }

  /** The child nodes read back from `h`, idealised as the inverse of
      `Serialize`. It never fails: a run of characters is one text node, an
      element missing its end tag ends where its character data ends, and a
      stray end tag is dropped; the text on its two sides stays two text
      nodes (a real parser would merge them). */
  function Parse(h: Html): (c: seq<Node>)
    ensures forall i :: 0 <= i < |c| && c[i].Text? ==> c[i].data != []
    decreases |h|
  {
    if h == [] then []
    else
      match h[0]
      case Char(_) =>
        var (s, rest) := TakeText(h);
        assert |rest| < |h|;
        [Text(s)] + Parse(rest)
      case StartTag(tag, divider, hidden) =>
        var (s, rest) := TakeText(h[1..]);
        var after := if rest != [] && rest[0] == EndTag then rest[1..] else rest;
        [Elem(tag, divider, hidden, s)] + Parse(after)
      case EndTag => Parse(h[1..])
      case CommentTag(data) => [Comment(data)] + Parse(h[1..])
  }

  /** A normalized child list, as `Node.normalize()` leaves it: no empty text
      node and no two text nodes side by side. Serialization cannot tell such
      text nodes apart, so only normalized lists survive the round trip. */
  predicate Normal(c: seq<Node>) {
    && (forall i :: 0 <= i < |c| && c[i].Text? ==> c[i].data != [])
    && (forall i :: 0 < i < |c| && c[i].Text? ==> !c[i - 1].Text?)
  }

  /** Markup starting with a character run is taken apart at the run's end. */
  lemma {:induction false} TakeTextChars(s: string, rest: Html)
    requires rest == [] || !rest[0].Char?
    ensures TakeText(Chars(s) + rest) == (s, rest)
  {
    if s != [] {
      var h := Chars(s) + rest;
      assert h[0] == Char(s[0]);
      assert h[1..] == Chars(s[1..]) + rest;
      TakeTextChars(s[1..], rest);
      assert [s[0]] + s[1..] == s;
    } else {
      assert Chars(s) + rest == rest;
    }
  }

  /** A leading non-empty character run parses to one text node. */
  lemma ParseText(s: string, rest: Html)
    requires s != []
    requires rest == [] || !rest[0].Char?
    ensures Parse(Chars(s) + rest) == [Text(s)] + Parse(rest)
  {
    TakeTextChars(s, rest);
    assert (Chars(s) + rest)[0] == Char(s[0]);
  }

  /** A leading element with its end tag parses to that element. */
  lemma ParseElem(n: Node, rest: Html)
    requires n.Elem?
    ensures Parse(SerializeNode(n) + rest) == [n] + Parse(rest)
  {
    var h := SerializeNode(n) + rest;
    var tail := [EndTag] + rest;
    assert h == [StartTag(n.tag, n.divider, n.hidden)] + (Chars(n.content) + tail);
    assert h[1..] == Chars(n.content) + tail;
    TakeTextChars(n.content, tail);
    assert tail[1..] == rest;
  }

  /** A leading comment parses to that comment. */
  lemma ParseComment(n: Node, rest: Html)
    requires n.Comment?
    ensures Parse(SerializeNode(n) + rest) == [n] + Parse(rest)
  {
    var h := SerializeNode(n) + rest;
    assert h == [CommentTag(n.data)] + rest;
    assert h[1..] == rest;
  }

  /** The markup of a non-empty list that does not start with a text node does
      not start with a character. */
  lemma SerializeHead(c: seq<Node>)
    requires c != [] && !c[0].Text?
    ensures Serialize(c) != [] && !Serialize(c)[0].Char?
  {
  }

  /** Parsing what was serialized gives back the same child list. */
  lemma {:induction false} ParseSerialize(c: seq<Node>)
    requires Normal(c)
    ensures Parse(Serialize(c)) == c
  {
    if c != [] {
      var tail := c[1..];
      var rest := Serialize(tail);
      assert Normal(tail) by {
        assert forall i :: 0 <= i < |tail| ==> tail[i] == c[i + 1];
      }
      ParseSerialize(tail);
      if tail != [] && !tail[0].Text? {
        SerializeHead(tail);
      }
      assert Serialize(c) == SerializeNode(c[0]) + rest;
      match c[0]
      case Text(s) =>
        assert tail != [] ==> !tail[0].Text? by {
          if tail != [] {
            assert c[1] == tail[0];
          }
        }
        ParseText(s, rest);
      case Elem(_, _, _, _) =>
        ParseElem(c[0], rest);
      case Comment(_) =>
        ParseComment(c[0], rest);
    }
  }

  /** Distinct normalized child lists have distinct markup. */
  lemma SerializeInjective(c: seq<Node>, d: seq<Node>)
    requires Normal(c) && Normal(d)
    requires Serialize(c) == Serialize(d)
    ensures c == d
  {
    ParseSerialize(c);
    ParseSerialize(d);
  }

  /** Only the empty list serializes to the empty string, once text nodes are
      non-empty. */
  lemma SerializeEmpty(c: seq<Node>)
    requires Normal(c)
    ensures Serialize(c) == [] <==> c == []
  {
    if c != [] {
      match c[0]
      case Text(s) =>
        assert |Chars(s)| > 0;
      case Elem(_, _, _, _) =>
      case Comment(_) =>
    }
  }

  /** `Node.normalize()` on a child list: empty text nodes dropped and
      adjacent text nodes merged into one. */
  function Normalize(c: seq<Node>): seq<Node>
    decreases |c|, 0
  {
    if c == [] then []
    else
      match c[0]
      case Text(s) => NormalizeText(s, c[1..])
      case Elem(_, _, _, _) => [c[0]] + Normalize(c[1..])
      case Comment(_) => [c[0]] + Normalize(c[1..])
  }

  /** The normalization of `[Text(acc)] + c`: `acc` absorbs the text nodes
      that directly follow it. */
  function NormalizeText(acc: string, c: seq<Node>): seq<Node>
    decreases |c|, 1
  {
    if c != [] && c[0].Text? then NormalizeText(acc + c[0].data, c[1..])
    else (if acc == [] then [] else [Text(acc)]) + Normalize(c)
  }

  /** The markup of a concatenated text is the concatenated markup. */
  lemma CharsConcat(s: string, t: string)
    ensures Chars(s + t) == Chars(s) + Chars(t)
  {
    var l, r := Chars(s + t), Chars(s) + Chars(t);
    forall i | 0 <= i < |l|
      ensures l[i] == r[i]
    {
      if i < |s| {
        assert (s + t)[i] == s[i];
      } else {
        assert (s + t)[i] == t[i - |s|];
      }
    }
  }

  /** Markup that starts with the characters of `acc` followed by the markup
      of `c` parses to the normalization of `[Text(acc)] + c`. */
  lemma {:induction false} ParseTextRun(acc: string, c: seq<Node>)
    ensures Parse(Chars(acc) + Serialize(c)) == NormalizeText(acc, c)
    decreases |c|, 1
  {
    if c != [] && c[0].Text? {
      var t := c[0].data;
      CharsConcat(acc, t);
      assert Serialize(c) == Chars(t) + Serialize(c[1..]);
      assert Chars(acc) + Serialize(c) == Chars(acc + t) + Serialize(c[1..]);
      ParseTextRun(acc + t, c[1..]);
    } else {
      ParseNormalize(c);
      if c != [] {
        SerializeHead(c);
      }
      if acc == [] {
        assert Chars(acc) + Serialize(c) == Serialize(c);
      } else {
        ParseText(acc, Serialize(c));
      }
    }
  }

  /** What the round trip really does: parsing the `innerHTML` of any child
      list gives its normalization. */
  lemma {:induction false} ParseNormalize(c: seq<Node>)
    ensures Parse(Serialize(c)) == Normalize(c)
    decreases |c|, 0
  {
    if c != [] {
      var rest := Serialize(c[1..]);
      assert Serialize(c) == SerializeNode(c[0]) + rest;
      match c[0]
      case Text(s) =>
        ParseTextRun(s, c[1..]);
      case Elem(_, _, _, _) =>
        ParseElem(c[0], rest);
        ParseNormalize(c[1..]);
      case Comment(_) =>
        ParseComment(c[0], rest);
        ParseNormalize(c[1..]);
    }
  }

  /** A node in front of a normalized list keeps it normalized when it is not
      an empty text and not a text next to a text. */
  lemma NormalCons(n: Node, c: seq<Node>)
    requires Normal(c)
    requires n.Text? ==> n.data != [] && (c == [] || !c[0].Text?)
    ensures Normal([n] + c)
  {
    var d := [n] + c;
    forall i | 0 < i < |d|
      ensures d[i] == c[i - 1]
    {
    }
  }

  /** Normalizing never lengthens a list, and leaves its length unchanged
      only when the list is normalized already. */
  lemma {:induction false} NormalizeShrinks(c: seq<Node>)
    ensures |Normalize(c)| <= |c|
    ensures |Normalize(c)| == |c| ==> Normal(c)
    decreases |c|, 0
  {
    if c != [] {
      match c[0]
      case Text(s) =>
        NormalizeTextShrinks(s, c[1..]);
        if |Normalize(c)| == |c| {
          NormalCons(c[0], c[1..]);
          assert [c[0]] + c[1..] == c;
        }
      case Elem(_, _, _, _) =>
        NormalizeShrinks(c[1..]);
        if |Normalize(c)| == |c| {
          NormalCons(c[0], c[1..]);
          assert [c[0]] + c[1..] == c;
        }
      case Comment(_) =>
        NormalizeShrinks(c[1..]);
        if |Normalize(c)| == |c| {
          NormalCons(c[0], c[1..]);
          assert [c[0]] + c[1..] == c;
        }
    }
  }

  /** The text-absorbing step: at most one node more than `c`, and exactly one
      more only when `acc` is non-empty, no text follows it and `c` is
      normalized. */
  lemma {:induction false} NormalizeTextShrinks(acc: string, c: seq<Node>)
    ensures |NormalizeText(acc, c)| <= |c| + 1
    ensures |NormalizeText(acc, c)| == |c| + 1 ==> acc != [] && (c == [] || !c[0].Text?) && Normal(c)
    decreases |c|, 1
  {
    if c != [] && c[0].Text? {
      NormalizeTextShrinks(acc + c[0].data, c[1..]);
    } else {
      NormalizeShrinks(c);
    }
  }

  /** Only normalized lists survive the round trip: a list that parsing its
      own markup gives back has no empty text node and no two adjacent text
      nodes. */
  lemma RoundTripOnlyNormal(c: seq<Node>)
    requires Parse(Serialize(c)) == c
    ensures Normal(c)
  {
    ParseNormalize(c);
    NormalizeShrinks(c);
  }

  /** An instance: two adjacent text nodes come back as one. */
  lemma AdjacentTextMerges()
    ensures Parse(Serialize([Text("a"), Text("b")])) == [Text("ab")]
  {
    var h := Serialize([Text("a"), Text("b")]);
    assert h == [Char('a'), Char('b')];
    TakeTextChars("ab", []);
    assert h == Chars("ab") + [];
  }
}

=== FILE: orchestrator.dfy ===
/** The cleaning pass (`cleanMessage`, `cleanMessages`): each message that is
    not backed up yet and holds history markers is snapshotted, then redacted;
    the pass reports how many messages it cleaned. */
module Orchestrator {
  import opened Dom
  import opened Markup
  import opened Redactor

  /** Identity of a message element (the object reference keying the store). */
  type MsgId = nat

  datatype Msg = Msg(id: MsgId, children: seq<Node>)

  /** An element occurs at most once in the document. */
  predicate Distinct(d: seq<Msg>) {
    forall i, j :: 0 <= i < j < |d| ==> d[i].id != d[j].id
  }

  /** The message elements of the page in document order, as
      `querySelectorAll(message)` lists them. */
  type Doc = d: seq<Msg> | Distinct(d) witness []

  /** A store entry: the message's `innerHTML` before cleaning and when it was taken. */
  datatype Backup = Backup(html: Html, timestamp: int)

  type Store = map<MsgId, Backup>

  /** The page session the cleaner owns: the document, the backup store and
      the cleaning-active flag. */
  datatype Session = Session(doc: Doc, store: Store, active: bool)

  /** Positions that fail to hide, per message. */
  type Failures = map<MsgId, set<nat>>

  function FailingIn(f: Failures, id: MsgId): set<nat> {
    if id in f then f[id] else {}
  }

  /** The pass cleans a message when it is not backed up and has a marker. */
  predicate NeedsCleaning(m: Msg, store: Store) {
    m.id !in store && Markers(m.children) != []
  }

  /** The message with its history hidden at its own markers. */
  function Redact(m: Msg, failing: set<nat>): Msg {
    Msg(m.id, HideHistory(m.children, Markers(m.children), failing))
  }

  /** The backup entry of a message: its `innerHTML` and the capture time. */
  function Snapshot(m: Msg, now: int): Backup {
    Backup(Serialize(m.children), now)
  }

  /** `cleanMessage`: the backup entry is taken from the content before any
      hiding, so parsing it gives the original children back; the message
      itself is redacted at the markers found in it. */
  function CleanMessage(m: Msg, store: Store, failing: set<nat>, now: int): (r: (Msg, Store))
    ensures r.0.id == m.id && |r.0.children| == |m.children|
    ensures r.0.children == HideHistory(m.children, Markers(m.children), failing)
    ensures r.1.Keys == store.Keys + {m.id}
    ensures forall id :: id in store && id != m.id ==> r.1[id] == store[id]
    ensures r.1[m.id].timestamp == now
    ensures Normal(m.children) ==> Parse(r.1[m.id].html) == m.children
  {
    SnapshotRestores(m.children);
    (Redact(m, failing), store[m.id := Snapshot(m, now)])
  }

  /** Parsing a normalized list's markup gives the list back. */
  lemma SnapshotRestores(c: seq<Node>)
    ensures Normal(c) ==> Parse(Serialize(c)) == c
  {
    if Normal(c) {
      ParseSerialize(c);
    }
  }

  datatype Pass = Pass(doc: Doc, store: Store, count: nat)

  /** Some message of `doc` with this identity is cleaned by a pass over `store`. */
  ghost predicate CleanedBy(doc: Doc, store: Store, id: MsgId) {
    exists i :: 0 <= i < |doc| && doc[i].id == id && NeedsCleaning(doc[i], store)
  }

  /** The backups a pass over `doc` leaves in `r`: every entry of `store`
      unchanged, a snapshot of each message that needed cleaning, and no
      other entry. */
  ghost predicate BackedUp(doc: Doc, store: Store, now: int, r: Store) {
    && (forall id :: id in r <==> id in store || CleanedBy(doc, store, id))
    && (forall id :: id in store ==> r[id] == store[id])
    && (forall i :: 0 <= i < |doc| && NeedsCleaning(doc[i], store) ==>
          doc[i].id in r && r[doc[i].id] == Snapshot(doc[i], now))
  }

  /** What a pass over `doc` and `store` leaves behind: every message stays in
      place; those that need cleaning are redacted and gain a backup of their
      original content; every other message and every existing entry is left
      alone; the count is the number of entries added. */
  ghost predicate PassOutcome(doc: Doc, store: Store, f: Failures, now: int, r: Pass) {
    && |r.doc| == |doc|
    && (forall i :: 0 <= i < |doc| ==> r.doc[i].id == doc[i].id)
    && (forall i :: 0 <= i < |doc| && !NeedsCleaning(doc[i], store) ==> r.doc[i] == doc[i])
    && (forall id :: id in r.store <==> id in store || CleanedBy(doc, store, id))
    && (forall i :: 0 <= i < |doc| && NeedsCleaning(doc[i], store) ==>
          && r.doc[i] == Redact(doc[i], FailingIn(f, doc[i].id))
          && doc[i].id in r.store
          && r.store[doc[i].id] == Snapshot(doc[i], now))
    && (forall id :: id in store ==> r.store[id] == store[id])
    && r.count == |r.store| - |store|
  }

  /** `cleanMessages`: one pass over the messages in document order. */
  function CleanMessages(doc: Doc, store: Store, f: Failures, now: int): (r: Pass)
    ensures PassOutcome(doc, store, f, now, r)
    decreases |doc|
  {
    if doc == [] then Pass(doc, store, 0)
    else
      var m := doc[0];
      var tail: Doc := doc[1..];
      var cleans := NeedsCleaning(m, store);
      var mc := if cleans then CleanMessage(m, store, FailingIn(f, m.id), now) else (m, store);
      var p := CleanMessages(tail, mc.1, f, now);
      var d := [mc.0] + p.doc;
      DistinctAfterStep(doc, store, f, now, mc.0, mc.1, p);
      var r := Pass(d, p.store, p.count + (if cleans then 1 else 0));
      CleanStepOutcome(doc, store, f, now, mc.0, mc.1, p, r);
      r
  }

  /** The backups of a pass: its store is exactly the old entries plus a
      snapshot of each message that needed cleaning. */
  lemma PassBacksUp(doc: Doc, store: Store, f: Failures, now: int)
    ensures BackedUp(doc, store, now, CleanMessages(doc, store, f, now).store)
  {
  }

  /** A pass keeps every message in place, so its result is a document. */
  lemma DistinctAfterStep(doc: Doc, store: Store, f: Failures, now: int, m': Msg, store1: Store, p: Pass)
    requires doc != []
    requires m'.id == doc[0].id
    requires PassOutcome(doc[1..], store1, f, now, p)
    ensures Distinct([m'] + p.doc)
  {
    var d := [m'] + p.doc;
    assert forall i :: 0 <= i < |d| ==> d[i].id == doc[i].id by {
      forall i | 0 < i < |d|
        ensures d[i].id == doc[i].id
      {
        assert d[i] == p.doc[i - 1];
        assert doc[1..][i - 1] == doc[i];
      }
    }
  }

  /** The inductive step of a pass: the head message handled, then the rest. */
  lemma CleanStepOutcome(doc: Doc, store: Store, f: Failures, now: int, m': Msg, store1: Store, p: Pass, r: Pass)
    requires doc != []
    requires NeedsCleaning(doc[0], store) ==> m' == Redact(doc[0], FailingIn(f, doc[0].id)) && store1 == store[doc[0].id := Snapshot(doc[0], now)]
    requires !NeedsCleaning(doc[0], store) ==> m' == doc[0] && store1 == store
    requires PassOutcome(doc[1..], store1, f, now, p)
    requires r.doc == [m'] + p.doc && r.store == p.store
    requires r.count == p.count + (if NeedsCleaning(doc[0], store) then 1 else 0)
    ensures PassOutcome(doc, store, f, now, r)
  {
    var m := doc[0];
    CleanStepDoc(doc, store, f, now, m', store1, p, r);
    CleanStepKeys(doc, store, store1, p.store);
    if NeedsCleaning(m, store) {
      assert |store1| == |store| + 1;
    }
  }

  /** The messages after a pass, head first. */
  lemma CleanStepDoc(doc: Doc, store: Store, f: Failures, now: int, m': Msg, store1: Store, p: Pass, r: Pass)
    requires doc != []
    requires NeedsCleaning(doc[0], store) ==> m' == Redact(doc[0], FailingIn(f, doc[0].id)) && store1 == store[doc[0].id := Snapshot(doc[0], now)]
    requires !NeedsCleaning(doc[0], store) ==> m' == doc[0] && store1 == store
    requires PassOutcome(doc[1..], store1, f, now, p)
    requires r.doc == [m'] + p.doc && r.store == p.store
    ensures |r.doc| == |doc|
    ensures forall i :: 0 <= i < |doc| ==> r.doc[i].id == doc[i].id
    ensures forall i :: 0 <= i < |doc| && !NeedsCleaning(doc[i], store) ==> r.doc[i] == doc[i]
    ensures forall i :: 0 <= i < |doc| && NeedsCleaning(doc[i], store) ==>
          && r.doc[i] == Redact(doc[i], FailingIn(f, doc[i].id))
          && doc[i].id in r.store
          && r.store[doc[i].id] == Snapshot(doc[i], now)
  {
    var m := doc[0];
    var tail: Doc := doc[1..];
    forall i | 0 <= i < |tail|
      ensures tail[i] == doc[i + 1]
      ensures tail[i].id != m.id
      ensures NeedsCleaning(tail[i], store1) == NeedsCleaning(tail[i], store)
    {
    }
    forall i | 0 <= i < |doc|
      ensures r.doc[i].id == doc[i].id
      ensures !NeedsCleaning(doc[i], store) ==> r.doc[i] == doc[i]
      ensures NeedsCleaning(doc[i], store) ==>
          && r.doc[i] == Redact(doc[i], FailingIn(f, doc[i].id))
          && doc[i].id in r.store
          && r.store[doc[i].id] == Snapshot(doc[i], now)
    {
      if i > 0 {
        assert r.doc[i] == p.doc[i - 1] && doc[i] == tail[i - 1];
      }
    }
  }

  /** The store after a pass holds the old entries and those of the
      messages the pass cleaned, head first. */
  lemma CleanStepKeys(doc: Doc, store: Store, store1: Store, after: Store)
    requires doc != []
    requires NeedsCleaning(doc[0], store) ==> store1.Keys == store.Keys + {doc[0].id}
    requires !NeedsCleaning(doc[0], store) ==> store1 == store
    requires forall id :: id in after <==> id in store1 || CleanedBy(doc[1..], store1, id)
    ensures forall id :: id in after <==> id in store || CleanedBy(doc, store, id)
  {
    var tail: Doc := doc[1..];
    forall id
      ensures id in after <==> id in store || CleanedBy(doc, store, id)
    {
      if CleanedBy(tail, store1, id) {
        var i :| 0 <= i < |tail| && tail[i].id == id && NeedsCleaning(tail[i], store1);
        assert doc[i + 1] == tail[i];
        assert doc[0].id != id;
      }
      if CleanedBy(doc, store, id) {
        var i :| 0 <= i < |doc| && doc[i].id == id && NeedsCleaning(doc[i], store);
        if i > 0 {
          assert tail[i - 1] == doc[i];
        }
      }
    }
  }

  /** No-op pass: when every message is backed up already or has no
      marker, the pass changes nothing and reports 0. */
  lemma CleanNothing(doc: Doc, store: Store, f: Failures, now: int)
    requires forall i :: 0 <= i < |doc| ==> !NeedsCleaning(doc[i], store)
    ensures CleanMessages(doc, store, f, now) == Pass(doc, store, 0)
  {
    var p := CleanMessages(doc, store, f, now);
    assert p.doc == doc;
    assert p.store.Keys == store.Keys;
    assert p.store == store;
  }

  /** Idempotence: a second pass right after the first finds nothing to clean,
      reports 0 and changes neither the document nor the store. */
  lemma CleanTwice(doc: Doc, store: Store, f: Failures, f': Failures, now: int, later: int)
    ensures var p := CleanMessages(doc, store, f, now);
            CleanMessages(p.doc, p.store, f', later) == Pass(p.doc, p.store, 0)
  {
    var p := CleanMessages(doc, store, f, now);
    forall i | 0 <= i < |p.doc|
      ensures !NeedsCleaning(p.doc[i], p.store)
    {
      if NeedsCleaning(doc[i], store) {
        assert doc[i].id in p.store;
      } else {
        assert p.doc[i] == doc[i];
      }
    }
    CleanNothing(p.doc, p.store, f', later);
  }
}

=== FILE: presence.dfy ===
/** Keeping the toggle button in the host page's navbar (`addInterfaceButton`,
    `observeInterface`, `init`). The navbar is reduced to whether the admin
    item the button is inserted after is present and how many button
    containers it holds; whether the location is a ticket page is an input
    (the path test `/\/a\/tickets\/\d+/` on `window.location.pathname`). */
module Presence {

  /** What the interface code sees of the page. `containers` counts the
      elements with the container's id; `observing` says whether the body
      observer of `observeInterface` is installed. */
  datatype Page = Page(ticket: bool, anchor: bool, containers: nat, observing: bool)

  /** `addInterfaceButton`: nothing when a container exists already or the
      admin item is missing; otherwise one container is inserted. */
  function AddInterfaceButton(p: Page): (r: Page)
    ensures r.ticket == p.ticket && r.anchor == p.anchor && r.observing == p.observing
    ensures p.containers > 0 || !p.anchor ==> r == p
    ensures p.containers == 0 && p.anchor ==> r.containers == 1
    ensures r.containers > 0 || !r.anchor
  {
    if p.containers > 0 then p
    else if !p.anchor then p
    else p.(containers := p.containers + 1)
  }

  /** The body observer's callback: off a ticket page the (first) container is
      removed; on a ticket page with the admin item and no container, the
      button is added. */
  function OnBodyMutation(p: Page): (r: Page)
    ensures r.ticket == p.ticket && r.anchor == p.anchor && r.observing == p.observing
    ensures !p.ticket ==> r.containers == if p.containers > 0 then p.containers - 1 else 0
    ensures p.ticket && p.anchor ==> r.containers == if p.containers == 0 then 1 else p.containers
    ensures p.ticket && !p.anchor ==> r == p
  {
    if !p.ticket then
      p.(containers := if p.containers > 0 then p.containers - 1 else 0)
    else if p.anchor && p.containers == 0 then AddInterfaceButton(p)
    else p
  }

  /** `observeInterface`: install the body observer, then add the button at
      once when on a ticket page with the admin item present. */
  function ObserveInterface(p: Page): (r: Page)
    ensures r.observing
    ensures p.ticket && p.anchor ==> r.containers == if p.containers == 0 then 1 else p.containers
    ensures !(p.ticket && p.anchor) ==> r.containers == p.containers
  {
    var q := p.(observing := true);
    if q.ticket && q.anchor then AddInterfaceButton(q) else q
  }

  /** `init`: nothing off a ticket page, otherwise `observeInterface`. */
  function Init(p: Page): (r: Page)
    ensures r.observing <==> p.observing || p.ticket
    ensures !p.ticket ==> r == p
  {
    if !p.ticket then p else ObserveInterface(p)
  }

  /** What can happen to the page: the host re-renders (the location, the
      admin item and whether the host dropped a container may change) and
      the body observer, when installed, reacts to the mutation. */
  datatype Change = Change(ticket: bool, anchor: bool, dropsContainer: bool)

  function Apply(p: Page, c: Change): (r: Page)
    ensures r.observing == p.observing
  {
    var q := Page(c.ticket, c.anchor,
                  if c.dropsContainer && p.containers > 0 then p.containers - 1 else p.containers,
                  p.observing);
    if q.observing then OnBodyMutation(q) else q
  }

  /** At most one button container on the page. */
  predicate AtMostOne(p: Page) {
    p.containers <= 1
  }

  /** Every operation keeps at most one container. */
  lemma AtMostOneKept(p: Page, c: Change)
    requires AtMostOne(p)
    ensures AtMostOne(AddInterfaceButton(p))
    ensures AtMostOne(OnBodyMutation(p))
    ensures AtMostOne(ObserveInterface(p))
    ensures AtMostOne(Init(p))
    ensures AtMostOne(Apply(p, c))
  {
  }

  /** With the observer installed, after any change there is no button off a
      ticket page and exactly one on a ticket page whose admin item is there. */
  lemma ObservedPresence(p: Page, c: Change)
    requires AtMostOne(p) && p.observing
    ensures var r := Apply(p, c);
            && (!c.ticket ==> r.containers == 0)
            && (c.ticket && c.anchor ==> r.containers == 1)
  {
  }

  /** Adding the button twice is adding it once; with at most one container,
      reacting twice to the same page state is reacting once. */
  lemma Idempotent(p: Page)
    ensures AddInterfaceButton(AddInterfaceButton(p)) == AddInterfaceButton(p)
    ensures AtMostOne(p) ==> OnBodyMutation(OnBodyMutation(p)) == OnBodyMutation(p)
  {
  }

  /** A run of changes. */
  function ApplyAll(p: Page, cs: seq<Change>): Page
    decreases |cs|
  {
    if cs == [] then p else ApplyAll(Apply(p, cs[0]), cs[1..])
  }

  /** From initialization on, whatever the host does, there is never more
      than one button, and once the observer runs the last change decides:
      none off a ticket page, exactly one on a ticket page with its admin item. */
  lemma {:induction false} NeverDuplicated(p: Page, cs: seq<Change>)
    requires AtMostOne(p)
    ensures AtMostOne(ApplyAll(p, cs))
    ensures ApplyAll(p, cs).observing == p.observing
    ensures p.observing && cs != [] ==>
              var r := ApplyAll(p, cs);
              var c := cs[|cs| - 1];
              && (!c.ticket ==> r.containers == 0)
              && (c.ticket && c.anchor ==> r.containers == 1)
    decreases |cs|
  {
    if cs != [] {
      var q := Apply(p, cs[0]);
      AtMostOneKept(p, cs[0]);
      NeverDuplicated(q, cs[1..]);
      if |cs| == 1 {
        assert ApplyAll(q, cs[1..]) == q;
        if p.observing {
          ObservedPresence(p, cs[0]);
        }
      } else {
        assert cs[1..][|cs[1..]| - 1] == cs[|cs| - 1];
      }
    }
  }
}

=== FILE: redactor.dfy ===
/** Hiding quoted history inside one message: the sibling walk of
    `hideContent` and the per-marker pass of `cleanMessage`. Positions in the
    child list stand for node identity; `failing` holds the positions whose
    hiding throws (a node the host page detached meanwhile), which the walk
    catches and steps over. */
module Redactor {
  import opened Dom

  /** Where a sibling walk that reaches index `node` stops: at `end` when that
      is a sibling at or after `node`, otherwise past the last sibling. */
  function StopAt(c: seq<Node>, node: nat, end: Option<nat>): nat {
    if end.Some? && node <= end.value < |c| then end.value else |c|
  }

  /** The loop of `hideContent` from sibling `node` on. The successor is
      fixed before the node is touched, so a failing node is skipped and the
      walk goes on with the next one. */
  function Walk(c: seq<Node>, node: nat, end: Option<nat>, failing: set<nat>): (r: seq<Node>)
    requires node <= |c|
    ensures |r| == |c|
    ensures forall i :: 0 <= i < |c| ==>
      r[i] == if node <= i < StopAt(c, node, end) && i !in failing then Hide(c[i]) else c[i]
    decreases |c| - node
  {
    if node == |c| || end == Some(node) then c
    else
      var c' := if node in failing then c else c[node := Hide(c[node])];
      assert StopAt(c', node + 1, end) == StopAt(c, node, end);
      Walk(c', node + 1, end, failing)
  }

  /** `hideContent(start, end)`: hides the siblings strictly after `start` up
      to, not including, `end`; when `end` is absent or is not a later sibling,
      up to the end of the list. */
  function HideContent(c: seq<Node>, start: nat, end: Option<nat>, failing: set<nat>): (r: seq<Node>)
    requires start < |c|
    ensures |r| == |c|
    ensures forall i :: 0 <= i <= start ==> r[i] == c[i]
    ensures forall i :: StopAt(c, start + 1, end) <= i < |c| ==> r[i] == c[i]
    ensures forall i :: start < i < StopAt(c, start + 1, end) ==>
      r[i] == if i in failing then c[i] else Hide(c[i])
  {
    Walk(c, start + 1, end, failing)
  }

  /** Marker positions as the cleaner receives them: elements of the list, in
      strictly increasing document order (flat siblings). */
  predicate ValidMarkers(c: seq<Node>, ms: seq<nat>) {
    && (forall k :: 0 <= k < |ms| ==> ms[k] < |c| && c[ms[k]].Elem?)
    && (forall k, l :: 0 <= k < l < |ms| ==> ms[k] < ms[l])
  }

  /** No marker lies strictly inside the segment that starts at marker `k`. */
  lemma NoMarkerInSegment(ms: seq<nat>, k: nat, i: nat)
    requires forall a, b :: 0 <= a < b < |ms| ==> ms[a] < ms[b]
    requires k < |ms| && ms[k] < i
    requires k + 1 < |ms| ==> i < ms[k + 1]
    ensures i !in ms
  {
    forall j | 0 <= j < |ms|
      ensures ms[j] != i
    {
      if j > k + 1 {
        assert ms[k + 1] < ms[j];
      }
    }
  }

  /** The `forEach` of `cleanMessage` from marker `k` on: hide the marker,
      then the siblings up to the next marker (or the end after the last). */
  function HideFrom(c: seq<Node>, ms: seq<nat>, k: nat, failing: set<nat>): (r: seq<Node>)
    requires ValidMarkers(c, ms) && k <= |ms|
    ensures |r| == |c|
    ensures forall i :: 0 <= i < |c| ==>
      r[i] == if k < |ms| && ms[k] <= i && (i in ms || i !in failing) then Hide(c[i]) else c[i]
    decreases |ms| - k
  {
    if k == |ms| then c
    else
      var m := ms[k];
      var next := if k + 1 < |ms| then Some(ms[k + 1]) else None;
      var c1 := c[m := c[m].(hidden := true)];
      var c2 := HideContent(c1, m, next, failing);
      assert ValidMarkers(c2, ms);
      var r := HideFrom(c2, ms, k + 1, failing);
      assert forall i :: 0 <= i < |c| ==>
        r[i] == if k < |ms| && ms[k] <= i && (i in ms || i !in failing) then Hide(c[i]) else c[i]
      by {
        forall i | 0 <= i < |c|
          ensures r[i] == if ms[k] <= i && (i in ms || i !in failing) then Hide(c[i]) else c[i]
        {
          if i < m {
            assert k + 1 < |ms| ==> m < ms[k + 1];
            if i in ms {
              var j :| 0 <= j < |ms| && ms[j] == i;
              assert j < k;
            }
          } else if i == m {
          } else if i < StopAt(c1, m + 1, next) {
            NoMarkerInSegment(ms, k, i);
          } else {
            assert k + 1 < |ms| && i >= ms[k + 1];
          }
        }
      }
      r
  }

  /** The hiding half of `cleanMessage`: every marker is hidden, and every
      sibling after the first marker that does not fail is hidden; the content
      before the first marker keeps its visibility. */
  function HideHistory(c: seq<Node>, ms: seq<nat>, failing: set<nat>): (r: seq<Node>)
    requires ValidMarkers(c, ms)
    ensures |r| == |c|
    ensures forall i :: 0 <= i < |c| ==>
      r[i] == if |ms| > 0 && ms[0] <= i && (i in ms || i !in failing) then Hide(c[i]) else c[i]
  {
    HideFrom(c, ms, 0, failing)
  }

  /** End of the segment opened by marker `k`: the next marker, or the end of
      the list after the last one. */
  function SegmentEnd(c: seq<Node>, ms: seq<nat>, k: nat): nat {
    if k + 1 < |ms| then ms[k + 1] else |c|
  }

  /** Partition correctness in terms of segments: content before the first
      marker is untouched, every marker is hidden, and each segment from a
      marker to the next marker (or to the end after the last marker) is hidden
      node by node, except for nodes whose hiding failed. Nothing is removed and
      every node keeps its text. */
  lemma HideHistoryPartition(c: seq<Node>, ms: seq<nat>, failing: set<nat>)
    requires ValidMarkers(c, ms) && |ms| > 0
    ensures forall i :: 0 <= i < ms[0] ==> HideHistory(c, ms, failing)[i] == c[i]
    ensures forall k :: 0 <= k < |ms| ==> IsHidden(HideHistory(c, ms, failing)[ms[k]])
    ensures forall k, i ::
              (0 <= k < |ms| && ms[k] < i < SegmentEnd(c, ms, k) && i !in failing && Hideable(c[i]))
              ==> IsHidden(HideHistory(c, ms, failing)[i])
    ensures forall i :: 0 <= i < |c| ==> TextContent(HideHistory(c, ms, failing)[i]) == TextContent(c[i])
  {
    var r := HideHistory(c, ms, failing);
    forall k | 0 <= k < |ms|
      ensures IsHidden(r[ms[k]])
    {
      if k > 0 {
        assert ms[0] < ms[k];
      }
    }
  }

  /** In the model, hiding keeps every marker in place, so a cleaned message
      still has markers and only the backup store keeps it from being cleaned
      again. In a browser this holds for `hr` markers only (see `Dom.HideKeepsMarkers`). */
  lemma HideHistoryKeepsMarkers(c: seq<Node>, ms: seq<nat>, failing: set<nat>)
    requires ValidMarkers(c, ms)
    ensures Markers(HideHistory(c, ms, failing)) == Markers(c)
  {
    var r := HideHistory(c, ms, failing);
    forall j | 0 <= j < |c|
      ensures IsMarker(r[j]) == IsMarker(c[j])
    {
      HideKeepsMarkers(c[j]);
    }
    SameMarkersFrom(r, c, 0);
  }
}

=== FILE: restorer.dfy ===
/** Undoing the cleaning (`restoreMessages`, `safelyRestoreContent`): every
    backed-up message gets its stored content back, whatever it holds now, and
    the store and the active flag are reset. */
module Restorer {
  import opened Dom
  import opened Markup
  import opened Orchestrator

  /** `safelyRestoreContent`: removes the children one by one from the front,
      then appends the children parsed from the stored markup in order. The
      outcome is the parsed content, whatever the element held before. */
  method SafelyRestoreContent(children: seq<Node>, html: Html) returns (r: seq<Node>)
    ensures r == Parse(html)
  {
    var parsed := Parse(html);
    r := children;
    while r != []
      decreases |r|
    {
      r := r[1..];
    }
    var i := 0;
    while i < |parsed|
      invariant 0 <= i <= |parsed|
      invariant r == parsed[..i]
    {
      r := r + [parsed[i]];
      i := i + 1;
    }
  }

  /** An entry is restored when its stored markup is not the empty string. */
  predicate Restorable(store: Store, id: MsgId) {
    id in store && store[id].html != []
  }

  /** The children a message has once the restore loop has passed over it. */
  function RestoredChildren(m: Msg, store: Store): seq<Node> {
    if Restorable(store, m.id) then Parse(store[m.id].html) else m.children
  }

  /** The restore loop over the document: a message whose entry has markup
      gets the parsed markup as its children; every other message, and every
      message's identity and place, stays as it is. */
  function RestoreDoc(doc: Doc, store: Store): (r: Doc)
    ensures |r| == |doc|
    ensures forall i :: 0 <= i < |doc| ==> r[i].id == doc[i].id
    ensures forall i :: 0 <= i < |doc| && Restorable(store, doc[i].id) ==>
      r[i].children == Parse(store[doc[i].id].html)
    ensures forall i :: 0 <= i < |doc| && !Restorable(store, doc[i].id) ==> r[i] == doc[i]
  {
    var d := seq(|doc|, i requires 0 <= i < |doc| => Msg(doc[i].id, RestoredChildren(doc[i], store)));
    assert Distinct(d) by {
      assert forall i :: 0 <= i < |d| ==> d[i].id == doc[i].id;
    }
    d
  }

  /** `restoreMessages`: every entry with non-empty markup has its message's
      children replaced by the parsed markup (an entry whose message has left
      the document changes nothing visible but is still counted); then the
      store is cleared and cleaning is switched off. The count is the number
      of entries with non-empty markup. */
  function RestoreMessages(s: Session): (r: (Session, nat))
    ensures r.0.store == map[] && !r.0.active
    ensures |r.0.doc| == |s.doc|
    ensures forall i :: 0 <= i < |s.doc| ==> r.0.doc[i].id == s.doc[i].id
    ensures forall i :: 0 <= i < |s.doc| && Restorable(s.store, s.doc[i].id) ==>
      r.0.doc[i].children == Parse(s.store[s.doc[i].id].html)
    ensures forall i :: 0 <= i < |s.doc| && !Restorable(s.store, s.doc[i].id) ==> r.0.doc[i] == s.doc[i]
    ensures r.1 == |set id | id in s.store && s.store[id].html != []|
  {
    (Session(RestoreDoc(s.doc, s.store), map[], false), |set id | id in s.store && s.store[id].html != []|)
  }

  /** The markup of a message that has a marker is never empty. */
  lemma SnapshotNonEmpty(m: Msg, now: int)
    requires Markers(m.children) != []
    ensures Snapshot(m, now).html != []
  {
    var ms := Markers(m.children);
    ElemSerializes(m.children, ms[0]);
  }

  /** An element among the children contributes at least its two tags. */
  lemma {:induction false} ElemSerializes(c: seq<Node>, j: nat)
    requires j < |c| && c[j].Elem?
    ensures |Serialize(c)| >= 2
  {
    if j > 0 {
      assert c[1..][j - 1] == c[j];
      ElemSerializes(c[1..], j - 1);
    }
  }

  /** Every entry a pass adds to an empty store has non-empty markup. */
  lemma CleanedEntriesRestorable(doc: Doc, f: Failures, now: int)
    ensures var p := CleanMessages(doc, map[], f, now);
            forall id :: id in p.store ==> Restorable(p.store, id)
  {
    var p := CleanMessages(doc, map[], f, now);
    forall id | id in p.store
      ensures p.store[id].html != []
    {
      var j :| 0 <= j < |doc| && doc[j].id == id && NeedsCleaning(doc[j], map[]);
      SnapshotNonEmpty(doc[j], now);
    }
  }

  /** Restoring after a pass from an empty store puts message `i` back:
      a message the pass cleaned gets its snapshot back, which parses to its
      original children ... */
  lemma RestoreUndoesClean(doc: Doc, f: Failures, now: int, i: nat)
    requires i < |doc| && Normal(doc[i].children) && NeedsCleaning(doc[i], map[])
    ensures var p := CleanMessages(doc, map[], f, now);
            Msg(p.doc[i].id, RestoredChildren(p.doc[i], p.store)) == doc[i]
  {
    SnapshotNonEmpty(doc[i], now);
    ParseSerialize(doc[i].children);
  }

  /** ... and a message the pass left alone has no entry, so it stays as it is. */
  lemma RestoreKeepsUncleaned(doc: Doc, f: Failures, now: int, i: nat)
    requires i < |doc| && !NeedsCleaning(doc[i], map[])
    ensures var p := CleanMessages(doc, map[], f, now);
            Msg(p.doc[i].id, RestoredChildren(p.doc[i], p.store)) == doc[i]
  {
    forall j | 0 <= j < |doc| && doc[j].id == doc[i].id
      ensures !NeedsCleaning(doc[j], map[])
    {
    }
    assert !CleanedBy(doc, map[], doc[i].id);
  }

  /** Restoring after a pass from an empty store gives back the document. */
  lemma RestoreAfterClean(doc: Doc, f: Failures, now: int)
    requires forall i :: 0 <= i < |doc| && NeedsCleaning(doc[i], map[]) ==> Normal(doc[i].children)
    ensures var p := CleanMessages(doc, map[], f, now);
            RestoreDoc(p.doc, p.store) == doc
  {
    var p := CleanMessages(doc, map[], f, now);
    var d := RestoreDoc(p.doc, p.store);
    forall i | 0 <= i < |doc|
      ensures d[i] == doc[i]
    {
      if NeedsCleaning(doc[i], map[]) {
        RestoreUndoesClean(doc, f, now, i);
      } else {
        RestoreKeepsUncleaned(doc, f, now, i);
      }
    }
  }

  /** When every entry has markup, every entry is counted. */
  lemma CountRestored(s: Session)
    requires forall id :: id in s.store ==> s.store[id].html != []
    ensures RestoreMessages(s).1 == |s.store|
  {
    assert (set id | id in s.store && s.store[id].html != []) == s.store.Keys;
  }

  /** Round trip: cleaning a page with an empty store and then restoring gives
      back every message's original children, an empty store, cleaning off,
      and a restored count equal to the cleaned count. */
  lemma CleanThenRestore(doc: Doc, f: Failures, now: int)
    requires forall i :: 0 <= i < |doc| && NeedsCleaning(doc[i], map[]) ==> Normal(doc[i].children)
    ensures var p := CleanMessages(doc, map[], f, now);
            var r := RestoreMessages(Session(p.doc, p.store, true));
            r.0 == Session(doc, map[], false) && r.1 == p.count
  {
    var p := CleanMessages(doc, map[], f, now);
    RestoreAfterClean(doc, f, now);
    CleanedEntriesRestorable(doc, f, now);
    CountRestored(Session(p.doc, p.store, true));
  }
}

=== FILE: watcher.dfy ===
/** The new-messages watcher that `observeChanges` installs while cleaning is
    active: a mutation observer on the conversation area gated by
    `cleaningActive`, `cleaningInProgress` and a 2000 ms debounce on
    `lastExecution`. Firing disconnects the observer, the pass runs 500 ms
    later and the observer is reconnected 1000 ms after the pass. Time is an
    integer clock in milliseconds; the two timers are the phases `Settling`
    and `CoolingDown`, each with the instant it is due. */
module ChangeWatcher {

  /** Minimum time between two detections. */
  const Debounce: int := 2000
  /** Delay from a detection to the cleaning pass. */
  const SettleDelay: int := 500
  /** Delay from the pass to the reconnection. */
  const CooldownDelay: int := 1000

  datatype Phase =
    | Idle
    | Settling(due: int)
    | CoolingDown(due: int)

  /** One observer and its closure variables. */
  datatype Watcher = Watcher(connected: bool, inProgress: bool, lastExecution: int, phase: Phase)

  /** A freshly installed watcher: observing, nothing in progress, never run. */
  const Fresh: Watcher := Watcher(true, false, 0, Idle)

  /** The observer is disconnected exactly while a run is in progress; the
      settle timer is due `SettleDelay` ms after the last detection, and the
      cool-down timer no earlier than `CooldownDelay` ms after that. */
  predicate Inv(w: Watcher) {
    && w.connected == !w.inProgress
    && w.phase.Idle? == !w.inProgress
    && (w.phase.Settling? ==> w.phase.due == w.lastExecution + SettleDelay)
    && (w.phase.CoolingDown? ==> w.phase.due >= w.lastExecution + SettleDelay + CooldownDelay)
  }

  /** What the watcher sees: a batch of mutations at `now` (with the cleaning
      flag as it stands and whether an added node is a message element), or
      the clock reaching `now`, which runs a timer that is due. */
  datatype Input =
    | Mutations(now: int, active: bool, addsMessage: bool)
    | Tick(now: int)

  /** What a step did: detected new messages, ran the cleaning pass, or nothing. */
  datatype Output = Quiet | Detected | RunsPass

  /** The observer callback's gate: it fires only when the observer is
      connected, cleaning is active, no run is in progress, a message element
      was added and at least `Debounce` ms passed since the last detection. */
  predicate Fires(w: Watcher, now: int, active: bool, addsMessage: bool) {
    w.connected && active && !w.inProgress && addsMessage && now - w.lastExecution >= Debounce
  }

  /** The observer callback. */
  function OnMutations(w: Watcher, now: int, active: bool, addsMessage: bool): (r: (Watcher, Output))
    ensures r.1 == Detected <==> Fires(w, now, active, addsMessage)
    ensures r.1 != RunsPass
    ensures r.1 == Detected ==> r.0 == Watcher(false, true, now, Settling(now + SettleDelay))
    ensures r.1 == Quiet ==> r.0 == w
  {
    if !w.connected then (w, Quiet)
    else if !active || w.inProgress then (w, Quiet)
    else if !addsMessage || now - w.lastExecution < Debounce then (w, Quiet)
    else (Watcher(false, true, now, Settling(now + SettleDelay)), Detected)
  }

  /** The two timers: the settle timer runs the pass and schedules the
      cool-down `CooldownDelay` ms after the moment it runs (the inner
      `setTimeout` is started from inside the settle callback); the cool-down
      timer reconnects and clears the in-progress flag. */
  function OnTick(w: Watcher, now: int): (r: (Watcher, Output))
    ensures r.1 == RunsPass <==> w.phase.Settling? && now >= w.phase.due
    ensures r.1 == RunsPass ==> r.0 == w.(phase := CoolingDown(now + CooldownDelay))
    ensures r.1 != Detected
    ensures r.0.lastExecution == w.lastExecution
    ensures w.phase.CoolingDown? && now >= w.phase.due ==> r.0.connected && !r.0.inProgress
    ensures r.1 == Quiet && !(w.phase.CoolingDown? && now >= w.phase.due) ==> r.0 == w
  {
    match w.phase
    case Settling(due) =>
      if now >= due then (w.(phase := CoolingDown(now + CooldownDelay)), RunsPass) else (w, Quiet)
    case CoolingDown(due) =>
      if now >= due then (w.(connected := true, inProgress := false, phase := Idle), Quiet) else (w, Quiet)
    case Idle => (w, Quiet)
  }

  /** One input to the watcher; every step keeps its flags and timers
      consistent. */
  function Step(w: Watcher, i: Input): (r: (Watcher, Output))
    ensures Inv(w) ==> Inv(r.0)
  {
    match i
    case Mutations(now, active, adds) => OnMutations(w, now, active, adds)
    case Tick(now) => OnTick(w, now)
  }

  /** The outcome of a run of inputs: the final watcher, the detection times
      in order and the number of passes run. */
  datatype Trace = Trace(last: Watcher, detections: seq<int>, passes: nat)

  function Run(w: Watcher, ins: seq<Input>): Trace
    decreases |ins|
  {
    if ins == [] then Trace(w, [], 0)
    else
      var (w1, o) := Step(w, ins[0]);
      var t := Run(w1, ins[1..]);
      Trace(t.last, (if o == Detected then [ins[0].now] else []) + t.detections,
            t.passes + (if o == RunsPass then 1 else 0))
  }

  /** 1 while the settle timer is pending, 0 otherwise. */
  function Pending(w: Watcher): nat {
    if w.phase.Settling? then 1 else 0
  }

  /** Times at least `Debounce` ms after `base` and at least `Debounce` ms
      apart from each other. */
  predicate Spaced(ds: seq<int>, base: int) {
    && (forall k :: 0 <= k < |ds| ==> ds[k] >= base + Debounce)
    && (forall k, l :: 0 <= k < l < |ds| ==> ds[l] - ds[k] >= Debounce)
  }

  /** A detection `Debounce` ms after `base`, followed by times spaced from it. */
  lemma SpacedCons(d: int, rest: seq<int>, base: int)
    requires d >= base + Debounce && Spaced(rest, d)
    ensures Spaced([d] + rest, base)
  {
    var ds := [d] + rest;
    forall k, l | 0 <= k < l < |ds|
      ensures ds[l] - ds[k] >= Debounce
    {
      assert ds[l] == rest[l - 1];
      if k > 0 {
        assert ds[k] == rest[k - 1];
      }
    }
  }

  /** Debounce: every detection of a run comes at least `Debounce` ms after
      the watcher's last detection before the run, any two detections of the
      run are at least `Debounce` ms apart, and the final `lastExecution` is
      the last detection. */
  lemma {:induction false} RunDebounced(w: Watcher, ins: seq<Input>)
    requires Inv(w)
    ensures Spaced(Run(w, ins).detections, w.lastExecution)
    ensures var t := Run(w, ins);
            && (t.detections == [] ==> t.last.lastExecution == w.lastExecution)
            && (t.detections != [] ==> t.last.lastExecution == t.detections[|t.detections| - 1])
    decreases |ins|
  {
    if ins != [] {
      var s := Step(w, ins[0]);
      RunDebounced(s.0, ins[1..]);
      var t1 := Run(s.0, ins[1..]);
      if s.1 == Detected {
        SpacedCons(ins[0].now, t1.detections, w.lastExecution);
      }
    }
  }

  /** Two qualifying bursts less than `Debounce` ms apart give one detection:
      no detection of a run falls within `Debounce` ms of another. */
  lemma BurstsCoalesce(w: Watcher, ins: seq<Input>, k: nat, l: nat)
    requires Inv(w)
    requires k < l < |Run(w, ins).detections|
    ensures Run(w, ins).detections[l] - Run(w, ins).detections[k] >= Debounce
  {
    RunDebounced(w, ins);
  }

  /** Every detection is followed by exactly one pass: passes run so far plus
      the one still pending (if any) match the detections plus the one pending
      at the start. */
  lemma {:induction false} RunPasses(w: Watcher, ins: seq<Input>)
    requires Inv(w)
    ensures var t := Run(w, ins);
            Pending(w) + |t.detections| == t.passes + Pending(t.last)
    ensures Inv(Run(w, ins).last)
    decreases |ins|
  {
    if ins != [] {
      var (w1, o) := Step(w, ins[0]);
      RunPasses(w1, ins[1..]);
      assert Pending(w) + (if o == Detected then 1 else 0) == (if o == RunsPass then 1 else 0) + Pending(w1);
    }
  }

  /** Only mutations seen while cleaning is active count. */
  predicate AllInactive(ins: seq<Input>) {
    forall k :: 0 <= k < |ins| ==> ins[k].Mutations? ==> !ins[k].active
  }

  /** A watcher whose mutations all arrive while cleaning is off never
      detects anything, and runs at most the one pass already pending. */
  lemma {:induction false} InactiveNeverFires(w: Watcher, ins: seq<Input>)
    requires Inv(w) && AllInactive(ins)
    ensures Run(w, ins).detections == []
    ensures Run(w, ins).passes <= Pending(w)
    decreases |ins|
  {
    if ins != [] {
      var (w1, o) := Step(w, ins[0]);
      assert AllInactive(ins[1..]) by {
        forall k | 0 <= k < |ins[1..]|
          ensures ins[1..][k].Mutations? ==> !ins[1..][k].active
        {
          assert ins[1..][k] == ins[k + 1];
        }
      }
      InactiveNeverFires(w1, ins[1..]);
      RunPasses(w1, ins[1..]);
    }
  }
}
